=== FILE: README.md ===
# Cardiology report generator — core model

A Dafny model of the report-generation core of a Streamlit page (`app.py`) that turns the text of a
clinical PDF (echocardiography, Holter, ECG, ...) into a structured report written by a local,
OpenAI-compatible language model. The model covers:

- the **document-type registry** kept in the session: the insertion-ordered `doc_types` dict
  (name → instruction template), the type selected for configuration and the text-area buffer,
  with the sidebar's add, select, edit, save and delete actions (modules `Registry`, `Session`,
  `OrderedDict`);
- **start-up defaulting** of the session from the loaded configuration document: the registry
  falls back to the five built-in types, and each LLM setting is taken from the document when
  present, otherwise from its default, without overwriting a setting already in the session
  (modules `Config`, `Session`);
- **text extraction**: page texts joined by a blank line, a page without text contributing
  the empty string (module `Extraction`);
- **`generate_report`**: the validation gates in order, character-budget truncation, the
  three-section user message, and the request sent (module `Pipeline`);
- **`call_local_llm`**: endpoint, headers, JSON payload, and decoding of
  `choices[0].message.content` with Python's exceptions on missing keys or indices
  (modules `LlmClient`, `Json`);
- the Python string behaviour all of this relies on: `isspace`, `strip`, `rstrip('/')`,
  `join` and prefix slicing (module `PyStr`).

State that the page changes in place (`st.session_state`) is the class `Session.SessionState`.
Each of its methods states its new state as a function of module `Registry` or `Config`
applied to the old state, and the properties are proved as lemmas about those functions.
Pure string and JSON logic is written as functions with lemmas. The HTTP exchange is a
parameter `server: ChatRequest -> HttpOutcome`, so "no request is sent" can be stated as
"the outcome does not depend on the server".

Points of the code's behaviour that the model keeps as they are:

- A PDF that cannot be parsed does not fail with its own error. Extraction displays the error
  and returns `""`, so the pipeline reports it as "no text".
- Save and delete act on the currently selected type rather than on a name argument. The save
  button writes the buffer into the selected entry. The delete button removes the selected
  entry and then selects the first remaining key in insertion order.
- An unknown document type fails at the registry lookup, after the three gates. The failure is
  a `KeyError` caught by the generic handler.

## Model

| member | source | states |
|---|---|---|
| `Registry.AddRefusal` | app.py:340-344 | An add is refused exactly when the name is blank (only whitespace) or is already a key. A blank name is reported first. A refused add leaves the state as it was. |
| `Registry.AddAppends` | app.py:345-350 | An accepted add appends the name to the insertion order. It stores the given template, or the fallback template when the instructions are empty. No other entry changes, and the new type becomes the selection with its template in the buffer. |
| `Registry.SaveStoresBuffer` | app.py:305-306 | Saving writes the buffer into the selected entry only. The key order, the selection and the buffer do not change. |
| `Registry.DeleteRefusal` | app.py:311-320 | A delete is refused, with the last-entry error, exactly when one type remains. |
| `Registry.DeleteRemovesSelected` | app.py:311-315 | An accepted delete removes exactly the selected entry. The other keys keep their order and templates. The selection becomes the first remaining key, with its template in the buffer. |
| `Registry.Apply` | app.py:266-353 | Every sidebar action, accepted or refused, keeps the registry invariant: at least one type, unique keys, selection among them. |
| `Registry.Run` | app.py:266-353 | After any sequence of sidebar actions the registry still satisfies the invariant and has at least one entry. |
| `Session.SessionState.constructor` | app.py:108-130 | First run of the page, with the corrected start-up (see ## Findings): the registry is `Config.InitialRegistry`, so a stored registry with no entries falls back to the defaults instead of raising as app.py:120 does. The as-written start-up is `Config.InitialRegistryAsWritten`. Every LLM setting is filled by the defaulting loop. |
| `Session.SessionState.FillLlmSettings` | app.py:127-130 | The defaulting loop fills each missing LLM setting in place and leaves present ones. Its new state is `Config.FillSettings` of the old one. |
| `Session.SessionState.Add` | app.py:340-353 | The add button updates the session in place as `Registry.Add` says, or leaves it unchanged and returns the error. |
| `Session.SessionState.Select` | app.py:277-279 | Choosing a type loads its template into the buffer. |
| `Session.SessionState.Edit` | app.py:292-300 | Typing replaces the buffer. |
| `Session.SessionState.Save` | app.py:305-306 | The save button stores the buffer as the selected type's template. |
| `Session.SessionState.Delete` | app.py:311-320 | The delete button removes the selected type as `Registry.Delete` says, or returns the last-entry error and changes nothing. |
| `OrderedDict.SetExisting` | app.py:306 | Assigning to an existing key replaces its value in place. Order and other entries are unchanged. |
| `OrderedDict.SetNew` | app.py:346 | Assigning to a new key appends it to the insertion order. |
| `OrderedDict.RemoveAt` | app.py:313 | Deleting a key removes exactly that entry. The other keys keep their relative order and values, and the size drops by one. |
| `Config.DefaultDocTypesValid` | app.py:16-56 | The built-in registry has five distinct types, "Échographie cardiaque" first. |
| `Config.InitialRegistryAsWritten` | app.py:113-125 | As written, start-up fails exactly when the loaded registry is empty. Otherwise it is valid and holds the loaded registry. |
| `Config.EmptyStoredRegistryFails` | app.py:113-120 | As written, a configuration whose stored registry has no entries makes start-up fail. |
| `Config.InitialRegistry` | app.py:113-125 | The corrected start-up registry (see ## Findings). It is always valid: non-empty, unique keys, selection among them. A stored registry with no entries is replaced by the defaults, where the code as written raises at app.py:120. The as-written start-up is `Config.InitialRegistryAsWritten`. |
| `Config.InitialRegistrySpec` | app.py:113-125 | Start-up selects the first key with its template in the buffer. It keeps a non-empty stored registry verbatim and uses the defaults when none is stored. It agrees with the as-written code wherever that succeeds. |
| `Config.FillSettingsKeys` | app.py:128-130 | After the defaulting loop the session holds its earlier keys plus every default key, and nothing else. |
| `Config.FillSettingsKeeps` | app.py:128-130 | A setting already in the session is never overwritten. |
| `Config.FillSettingsFills` | app.py:128-130 | A missing setting takes the loaded document's value when the document has that key, otherwise its default. |
| `Config.FillSettingsIdempotent` | app.py:128-130 | Running the defaulting again, as every rerun of the page does, changes nothing. This holds even when the rerun reloads a different configuration document, for example one rewritten by a save in between. |
| `Config.FreshSettings` | app.py:58-65 | A fresh session holds exactly the six LLM settings. Each is the document's value or its default (`http://127.0.0.1:1234`, `model`, `lm-studio`, 0.2, 1500, 20000). |
| `PyStr.StripEmptyIffBlank` | app.py:341 | A string is empty once stripped exactly when every character is whitespace. |
| `Extraction.ExtractKeepsPages` | app.py:146-148 | Every page contributes its own text, unchanged and in page order, with one blank line between neighbours. A page without text contributes the empty string. |
| `Extraction.BlankPagesExtractBlank` | app.py:146-148 | A document whose pages yield no text extracts to a blank string, not to an error. |
| `LlmClient.EndpointShape` | app.py:168 | The endpoint is the base address with all trailing slashes removed, followed by `/v1/chat/completions`. |
| `LlmClient.EndpointIgnoresTrailingSlash` | app.py:168 | A trailing slash on the base address does not change the endpoint. |
| `LlmClient.BearerToken` | app.py:170-173 | The bearer token is never empty. It is the API key when the key is non-empty, and `lm-studio` otherwise. |
| `LlmClient.Headers` | app.py:170-173 | The headers are exactly the JSON content type and the bearer authorization. The token is the API key, or `lm-studio` when the key is empty. |
| `LlmClient.PayloadShape` | app.py:175-183 | The payload carries the model, the temperature and `max_tokens`. It has exactly two messages: the system prompt first, then the user content. |
| `LlmClient.ReplyRoundTrip` | app.py:189-190 | Decoding a well-formed reply gives back exactly the content the server put in it. |
| `LlmClient.DecodeReplySpec` | app.py:189-195 | Decoding succeeds exactly on bodies that have the reply path, and returns `choices[0].message.content` unmodified. A missing key or index (`KeyError`, `IndexError`) gives an invalid-response error that carries the body. A value of the wrong kind on the path (`TypeError`, e.g. a body that is not an object) gives the unexpected-body error, which carries no body. |
| `LlmClient.TransportFailure` | app.py:185-193 | A failed HTTP exchange becomes a connection error and is not retried. |
| `LlmClient.CallLocalLlmSpec` | app.py:158-195 | `call_local_llm` sends one request: to the composed endpoint, with the headers, the payload and a 120 s timeout. A failed exchange gives a connection error. A reply with the expected shape gives its content unmodified. A missing key or index gives an invalid-response error carrying the body. A `TypeError` on the path gives the unexpected-body error. |
| `LlmClient.CallLocalLlmAsksOnce` | app.py:185-190 | The result depends on the server only through its answer to that one request. |
| `Json.Key` | app.py:190 | Subscripting with a key succeeds exactly on a dict that has the key. A dict without it raises `KeyError`, and any other value raises `TypeError`. |
| `Json.Index` | app.py:190 | Indexing succeeds exactly on a list or string long enough. A shorter one raises `IndexError`, a dict raises `KeyError`, and anything else raises `TypeError`. |
| `Pipeline.TruncateSpec` | app.py:389-394 | Truncation keeps a prefix of the text. For a non-negative budget its length is `min(len(text), max_chars)`, and the text changes exactly when it is longer than the budget. |
| `Pipeline.SectionsRoundTrip` | app.py:396-401 | The user message reads back into document type, text and instructions, in that order, behind their fixed labels. |
| `Pipeline.ComposedTextIsBudgetPrefix` | app.py:389-401 | Right after the text label, the message carries exactly the first `min(len(text), max_chars)` characters of the extracted text. |
| `Pipeline.PrepareGates` | app.py:372-404 | The gates run in order: upload missing, then empty base address or model name, then blank extracted text, then unknown type. Each fails exactly under its own condition once the earlier gates pass. |
| `Pipeline.PreparedRequest` | app.py:389-414 | A prepared request goes to the composed endpoint with the bearer header and a 120 s timeout. Its system prompt is the registry's template for the type, and its user content is the composed message with the truncated text. It is flagged as truncated exactly when the text exceeded the budget. |
| `Pipeline.NoCallOnFailedGate` | app.py:372-387 | When a gate fails, the outcome is that gate's error whatever the server would answer, so no request is made. |
| `Pipeline.ReportFromReply` | app.py:403-421 | After the gates pass, the report comes from `call_local_llm` with the prepared prompts: the reply's content. A failed exchange becomes a connection error, A reply with a missing key or index becomes an invalid-response error carrying the body. A reply that raises `TypeError` becomes the unexpected-body error, without the body, as the generic handler at app.py:419-420 shows only the exception's text. |
| `Scenarios.EcgPrepared` | app.py:360-414 | An ECG page within budget passes every gate. It is sent whole under the label "ECG standard", with the ECG template as system message, to `http://127.0.0.1:1234/v1/chat/completions`. |
| `Scenarios.EcgReport` | app.py:360-417 | A server replying `Conclusion: ECG normal.` yields exactly that report. |
| `Scenarios.EcgServerDown` | app.py:185-193 | An unreachable server yields a connection error and no report. |
| `Scenarios.EcgUnexpectedShape` | app.py:189-195 | A reply `{"unexpected": "shape"}` yields an invalid-response error carrying that body. |
| `Scenarios.EcgChoicesNotList` | app.py:190 | A reply `{"choices": "x"}` raises `TypeError` on the path and yields the unexpected-body error. |
| `Scenarios.ScannedPdf` | app.py:383-387 | A PDF whose pages carry no text, or only whitespace, is reported as "no text", whatever the server. |

## Left out

- Rendering and widgets (sidebar, select boxes, sliders, buttons, spinners, tabs, download and copy) are presentation. So are the messages shown to the user: errors are returned as values instead.
- File I/O of the configuration: reading the file (a missing or unparsable file is `None`) and every write of it. That covers the writes after add, save and delete, the explicit save button, and the automatic save after a successful report.
- A configuration document that is not a JSON object is not modelled. In the source, a falsy one (`[]`, `0`, `false`, `""`) fails the truthiness test and takes the defaults, like a missing file. A truthy one (`[1]`, `"x"`, `5`) crashes at the `cfg.get` calls (app.py:115, app.py:130). A `doc_types` member that is not an object of strings is not modelled either.
- PDF parsing is done by a foreign library. A document is given as its page texts or as unreadable. An exception raised while extracting one page is folded into "unreadable", as the source catches it for the whole document.
- The HTTP transport, `raise_for_status` and the timeout itself are not modelled; only the constant 120 is carried in the request. A body that is not JSON raises an exception of the `requests` library, so it counts as a failed exchange (`Unreachable`).
- Temperature is carried as the decimal text of a float and passed through. Nothing is computed with it.
- Widget bounds (`max_tokens` 256–4096, `max_chars` 5000–100000) are not assumed. Truncation takes any integer, with Python's slice meaning for a negative budget.
- The 5000-character preview of the extracted text in the main page.
- A `TypeError` on the reply path escapes `call_local_llm` and is caught by the report's generic handler (app.py:419-420). The model reports it as the LLM error `UnexpectedBody`, without the exception's text: Python's message wording is not modelled.
- The report is returned as whatever JSON value `content` holds. The source does not check that it is a string, and neither does the model.
- Aliasing: when a loaded document has no `doc_types`, the source keeps the module-level default dict itself rather than a copy. The model works on values, so this sharing is not represented.
- Session keys other than the core's. Start-up is modelled for a fresh session, where none of the registry keys exists yet; the LLM settings loop is modelled for any session.
- Registry.AddAppends: the selection is modelled as a plain session value. In the code it is also the key of the type select box, created at app.py:281-289 before the add form is drawn. Streamlit refuses an assignment to a widget's key once that widget exists in the run, so the assignment at app.py:349 may raise after the new entry is stored (app.py:346). The selection, the buffer, the save and the rerun would then not happen. That refusal is not modelled.
- Registry.DeleteRemovesSelected: the same holds for the assignment at app.py:314, after the entry has been removed at app.py:313. The model carries on with the new selection and buffer.
- Session.SessionState.Add: updates the selection and buffer in place as `Registry.Add` says. The widget-key refusal described above is not modelled.
- Session.SessionState.Delete: updates the selection and buffer in place as `Registry.Delete` says. The widget-key refusal described above is not modelled.
- `Session.SessionState.Select`: requires the name to be a key, because the select box only offers keys. `Registry.Apply` ignores a selection of an unknown name for the same reason.

## Findings

| source | as written | input that shows it | evidently intended | confidence | as-written member | corrected member |
|---|---|---|---|---|---|---|
| app.py:113-120 | A loaded document's `doc_types` is used as the registry even when it has no entries. Start-up then takes its first key, which raises `StopIteration`, and the page cannot start. | a configuration file containing `{"doc_types": {}}` | A stored registry with no entries is completed from the defaults like a missing one, so start-up is never fatal. The registry then has at least one type, as the delete button keeps it (app.py:312 never removes the last type). The configuration panel has a branch for an empty registry (app.py:272-274), but start-up never reaches it. | medium, not executed | `Config.EmptyStoredRegistryFails` | `Config.InitialRegistry` |

=== FILE: config.dfy ===
/**
  * The persisted configuration and the start-up defaulting of the session:
  * `doc_types` falls back to the five built-in types, and each LLM setting is
  * taken from the loaded document when present, otherwise from its default.
  * Reading and writing the file itself is not modelled; a file that is missing
  * or does not parse is `None`.
  */
module Config {
  import opened Wrappers
  import opened OrderedDict
  import opened Json
  import opened Registry

  /** The five built-in document types, in this order. */
  const DefaultDocNames: seq<string> := [
    "Échographie cardiaque",
    "Holter ECG",
    "Holter tensionnel",
    "Polygraphie ventilatoire",
    "ECG standard"
  ]

  const EchoTemplate :=
    "Tu es un cardiologue expert en échocardiographie adulte.\n"
    + "Tu reçois le compte-rendu brut d'une échographie cardiaque (mesures, texte libre).\n"
    + "Ta mission :\n"
    + "- Structurer un compte-rendu clair, concis et professionnel.\n"
    + "- Résumer les données chiffrées importantes (dimensions, FE, pressions, valves…).\n"
    + "- Conclure par un paragraphe \"Conclusion\" puis, si utile, \"Recommandations\".\n"
    + "- Style attendu : compte-rendu hospitalier français, impersonnel, sans formules de politesse.\n"
    + "Ne JAMAIS inventer de valeur : si une information manque, tu l'ignores simplement."

  const HolterEcgTemplate :=
    "Tu es un cardiologue expert en rythmologie.\n"
    + "Tu reçois un rapport brut de Holter ECG (24 h ou plus) avec de nombreuses données chiffrées.\n"
    + "Ta mission :\n"
    + "- Synthétiser les principaux éléments (rythme de base, FC moyenne/min/max, extrasystoles, salves, FA, pauses, troubles conductifs...).\n"
    + "- Dégager les éléments cliniquement pertinents et les présenter de façon structurée.\n"
    + "- Terminer par une \"Conclusion\" claire (normal / anomalies principales / corrélation aux symptômes si mentionnée).\n"
    + "Style : compte-rendu médical français, concis, sans extrapoler au-delà des données fournies."

  const HolterBpTemplate :=
    "Tu es un cardiologue expert en HTA.\n"
    + "Tu reçois un rapport brut de Holter tensionnel (MAPA).\n"
    + "Ta mission :\n"
    + "- Résumer les pressions moyennes (24 h, jour, nuit) si disponibles.\n"
    + "- Commenter la charge tensionnelle, le profil nycthéméral (dipper / non dipper / reverse dipper), et l'équilibre global.\n"
    + "- Conclure par une \"Conclusion\" avec interprétation clinique : équilibre satisfaisant ou non, suspicion d'HTA masquée/blouse blanche, etc., si ces éléments apparaissent clairement.\n"
    + "Ne pas inventer de diagnostic non mentionné dans les données."

  const PolygraphyTemplate :=
    "Tu es un cardiologue / spécialiste du sommeil.\n"
    + "Tu reçois un compte-rendu brut de polygraphie ventilatoire.\n"
    + "Ta mission :\n"
    + "- Synthétiser les indices principaux (IAH, IAH obstructif/central, saturation, désaturations, ronflements... si présents).\n"
    + "- Décrire le profil global du sommeil respiratoire.\n"
    + "- Conclure par une \"Conclusion\" sur la sévérité du SAOS ou absence de SAOS si c'est clairement documenté.\n"
    + "Tu restes strictement sur les données fournies."

  const EcgTemplate :=
    "Tu es un cardiologue expert en électrocardiographie.\n"
    + "Tu reçois un descriptif brut d'ECG (souvent semi-structuré).\n"
    + "Ta mission :\n"
    + "- Produire une interprétation ECG standardisée : rythme, fréquence, axe, conduction, repolarisation, autres anomalies.\n"
    + "- Terminer par une \"Conclusion\" courte en une ou deux phrases.\n"
    + "Ne fais pas de diagnostic étiologique complet (ex : \"infarctus ancien\") si ce n'est pas explicitement supporté par le texte."

  const DefaultDocTypes: Dict := Dict(DefaultDocNames, map[
    DefaultDocNames[0] := EchoTemplate,
    DefaultDocNames[1] := HolterEcgTemplate,
    DefaultDocNames[2] := HolterBpTemplate,
    DefaultDocNames[3] := PolygraphyTemplate,
    DefaultDocNames[4] := EcgTemplate
  ])

  /** The LLM settings and their defaults, in the order they are initialised. */
  const DefaultLlmConfig: seq<(string, Json)> := [
    ("base_url", JStr("http://127.0.0.1:1234")),
    ("model_name", JStr("model")),
    ("api_key", JStr("lm-studio")),
    ("temperature", JReal("0.2")),
    ("max_tokens", JInt(1500)),
    ("max_chars", JInt(20000))
  ]

  /**
    * A loaded configuration document: its `doc_types` member when there is
    * one, and its other top-level members.
    */
  datatype ConfigDoc = ConfigDoc(docTypes: Option<Dict>, settings: map<string, Json>) {
    /** Python truthiness of the loaded dict: `{}` is false. */
    predicate IsEmpty() {
      docTypes.None? && settings == map[]
    }
  }

  /** A `doc_types` member read from JSON is a Python dict, hence a well-formed ordered dict. */
  ghost predicate WellFormed(cfg: Option<ConfigDoc>) {
    cfg.Some? && cfg.value.docTypes.Some? ==> cfg.value.docTypes.value.Valid()
  }

  lemma DefaultDocTypesValid()
    ensures DefaultDocTypes.Valid() && DefaultDocTypes.Size() == 5
    ensures DefaultDocTypes.keys[0] == "Échographie cardiaque"
  {
  }

  /**
    * The registry a fresh session starts from: the stored `doc_types` when the
    * loaded document is non-empty and has that member, otherwise the defaults.
    */
  function LoadedDocTypes(cfg: Option<ConfigDoc>): Dict {
    if cfg.Some? && !cfg.value.IsEmpty() then cfg.value.docTypes.GetOr(DefaultDocTypes) else DefaultDocTypes
  }

  /** Taking the first key of an empty dict raises `StopIteration`. */
  datatype InitError = NoDocTypes

  /**
    * The registry as start-up builds it, as written: the loaded `doc_types`,
    * the first key selected and its template in the buffer. A stored registry
    * with no entries has no first key, and start-up raises.
    */
  function InitialRegistryAsWritten(cfg: Option<ConfigDoc>): (r: Result<RegistryState, InitError>)
    requires WellFormed(cfg)
    ensures r.Failure? <==> LoadedDocTypes(cfg).Size() == 0
    ensures r.Success? ==> Registry.Valid(r.value) && r.value.docTypes == LoadedDocTypes(cfg)
  {
    var d := LoadedDocTypes(cfg);
    if d.keys == [] then Failure(NoDocTypes)
    else Success(RegistryState(d, d.keys[0], d.values[d.keys[0]]))
  }

  /** The configuration document that exhibits the failure: an empty stored registry. */
  const EmptyRegistryConfig: Option<ConfigDoc> := Some(ConfigDoc(Some(Dict([], map[])), map[]))

  /** As written, start-up fails on a stored registry with no entries. */
  lemma EmptyStoredRegistryFails()
    ensures WellFormed(EmptyRegistryConfig)
    ensures InitialRegistryAsWritten(EmptyRegistryConfig) == Failure(NoDocTypes)
  {
  }

  /** The stored registry, completed from the defaults when it is missing or has no entries. */
  function InitialDocTypes(cfg: Option<ConfigDoc>): Dict {
    var d := LoadedDocTypes(cfg);
    if d.Size() == 0 then DefaultDocTypes else d
  }

  /** Start-up registry with the empty-registry case completed from the defaults. */
  function InitialRegistry(cfg: Option<ConfigDoc>): (r: RegistryState)
    requires WellFormed(cfg)
    ensures Registry.Valid(r)
  {
    DefaultDocTypesValid();
    var d := InitialDocTypes(cfg);
    RegistryState(d, d.keys[0], d.values[d.keys[0]])
  }

  /**
    * Start-up always yields a valid registry; it agrees with the code as
    * written wherever that succeeds; a non-empty stored registry is kept as
    * stored, and otherwise the five defaults are used.
    */
  lemma InitialRegistrySpec(cfg: Option<ConfigDoc>)
    requires WellFormed(cfg)
    ensures var r := InitialRegistry(cfg);
      && Registry.Valid(r)
      && r.selected == r.docTypes.keys[0]
      && r.buffer == r.docTypes.values[r.selected]
      && (InitialRegistryAsWritten(cfg).Success? ==> InitialRegistryAsWritten(cfg).value == r)
      && (InitialRegistryAsWritten(cfg).Failure? ==> r.docTypes == DefaultDocTypes)
      && (cfg.Some? && cfg.value.docTypes.Some? && cfg.value.docTypes.value.Size() > 0 ==>
            r.docTypes == cfg.value.docTypes.value)
      && (cfg.None? || cfg.value.docTypes.None? ==> r.docTypes == DefaultDocTypes)
  {
  }

  /** The loaded document's value for `key` when it is non-empty and has that key, else `default`. */
  function ConfigValue(cfg: Option<ConfigDoc>, key: string, default: Json): Json {
    if cfg.Some? && !cfg.value.IsEmpty() && key in cfg.value.settings then cfg.value.settings[key] else default
  }

  /** One turn of the defaulting loop: a key already in the session is left alone. */
  function FillSetting(state: map<string, Json>, cfg: Option<ConfigDoc>, entry: (string, Json)): map<string, Json> {
    if entry.0 in state then state else state[entry.0 := ConfigValue(cfg, entry.0, entry.1)]
  }

  /** The defaulting loop run over `defaults`, in order. */
  function FillSettings(state: map<string, Json>, cfg: Option<ConfigDoc>, defaults: seq<(string, Json)>): map<string, Json>
    decreases |defaults|
  {
    if defaults == [] then state
    else FillSetting(FillSettings(state, cfg, defaults[..|defaults| - 1]), cfg, defaults[|defaults| - 1])
  }

  function KeysOf(defaults: seq<(string, Json)>): set<string> {
    set i | 0 <= i < |defaults| :: defaults[i].0
  }

  ghost predicate DistinctKeys(defaults: seq<(string, Json)>) {
    forall i, j :: 0 <= i < j < |defaults| ==> defaults[i].0 != defaults[j].0
  }

  /** After the loop the session holds its earlier keys and every key of `defaults`, and no other. */
  lemma {:induction false} FillSettingsKeys(state: map<string, Json>, cfg: Option<ConfigDoc>, defaults: seq<(string, Json)>)
    ensures FillSettings(state, cfg, defaults).Keys == state.Keys + KeysOf(defaults)
    decreases |defaults|
  {
    if defaults != [] {
      var n := |defaults| - 1;
      var init := defaults[..n];
      FillSettingsKeys(state, cfg, init);
      assert KeysOf(defaults) == KeysOf(init) + {defaults[n].0} by {
        forall i | 0 <= i < n ensures defaults[i].0 in KeysOf(init) {
          assert init[i] == defaults[i];
        }
      }
    }
  }

  /** A setting already in the session is never overwritten. */
  lemma {:induction false} FillSettingsKeeps(state: map<string, Json>, cfg: Option<ConfigDoc>, defaults: seq<(string, Json)>, k: string)
    requires k in state
    ensures k in FillSettings(state, cfg, defaults)
    ensures FillSettings(state, cfg, defaults)[k] == state[k]
    decreases |defaults|
  {
    if defaults != [] {
      FillSettingsKeeps(state, cfg, defaults[..|defaults| - 1], k);
    }
  }

  /**
    * A setting missing from the session takes the loaded document's value
    * when it has that key, otherwise its default.
    */
  lemma {:induction false} FillSettingsFills(state: map<string, Json>, cfg: Option<ConfigDoc>, defaults: seq<(string, Json)>, i: nat)
    requires DistinctKeys(defaults)
    requires i < |defaults| && defaults[i].0 !in state
    ensures defaults[i].0 in FillSettings(state, cfg, defaults)
    ensures FillSettings(state, cfg, defaults)[defaults[i].0] == ConfigValue(cfg, defaults[i].0, defaults[i].1)
    decreases |defaults|
  {
    var n := |defaults| - 1;
    var init, e := defaults[..n], defaults[n];
    var p := FillSettings(state, cfg, init);
    FillSettingsKeys(state, cfg, init);
    if i < n {
      assert init[i] == defaults[i];
      assert DistinctKeys(init) by {
        forall a, b | 0 <= a < b < |init| ensures init[a].0 != init[b].0 {
          assert init[a] == defaults[a] && init[b] == defaults[b];
        }
      }
      FillSettingsFills(state, cfg, init, i);
    } else {
      assert e.0 !in KeysOf(init) by {
        forall j | 0 <= j < n ensures init[j].0 != e.0 {
          assert init[j] == defaults[j];
        }
      }
    }
  }

  /**
    * Re-running start-up on an initialised session changes no setting, even
    * when the configuration document was reloaded and differs in between.
    */
  lemma FillSettingsIdempotent(state: map<string, Json>, cfg1: Option<ConfigDoc>, cfg2: Option<ConfigDoc>,
                                defaults: seq<(string, Json)>)
    ensures FillSettings(FillSettings(state, cfg1, defaults), cfg2, defaults) == FillSettings(state, cfg1, defaults)
  {
    var once := FillSettings(state, cfg1, defaults);
    FillSettingsKeys(state, cfg1, defaults);
    FillSettingsKeys(once, cfg2, defaults);
    forall k | k in once ensures FillSettings(once, cfg2, defaults)[k] == once[k] {
      FillSettingsKeeps(once, cfg2, defaults, k);
    }
  }

  /**
    * A fresh session gets, for each of the six LLM settings, the loaded
    * document's value when it has that key and the default otherwise.
    */
  lemma FreshSettings(cfg: Option<ConfigDoc>)
    ensures var r := FillSettings(map[], cfg, DefaultLlmConfig);
      && r.Keys == {"base_url", "model_name", "api_key", "temperature", "max_tokens", "max_chars"}
      && r["base_url"] == ConfigValue(cfg, "base_url", JStr("http://127.0.0.1:1234"))
      && r["model_name"] == ConfigValue(cfg, "model_name", JStr("model"))
      && r["api_key"] == ConfigValue(cfg, "api_key", JStr("lm-studio"))
      && r["temperature"] == ConfigValue(cfg, "temperature", JReal("0.2"))
      && r["max_tokens"] == ConfigValue(cfg, "max_tokens", JInt(1500))
      && r["max_chars"] == ConfigValue(cfg, "max_chars", JInt(20000))
  {
    FillSettingsKeys(map[], cfg, DefaultLlmConfig);
    var ks := KeysOf(DefaultLlmConfig);
    assert DefaultLlmConfig[0].0 in ks && DefaultLlmConfig[1].0 in ks && DefaultLlmConfig[2].0 in ks;
    assert DefaultLlmConfig[3].0 in ks && DefaultLlmConfig[4].0 in ks && DefaultLlmConfig[5].0 in ks;
    FillSettingsFills(map[], cfg, DefaultLlmConfig, 0);
    FillSettingsFills(map[], cfg, DefaultLlmConfig, 1);
    FillSettingsFills(map[], cfg, DefaultLlmConfig, 2);
    FillSettingsFills(map[], cfg, DefaultLlmConfig, 3);
    FillSettingsFills(map[], cfg, DefaultLlmConfig, 4);
    FillSettingsFills(map[], cfg, DefaultLlmConfig, 5);
  }
}

=== FILE: extraction.dfy ===
/**
  * Text extraction from an uploaded PDF. Parsing is done by a foreign library
  * and is not modelled: a parsed document is given as the text each page
  * yields (`None` when a page yields none), and a document the library cannot
  * read as `Unreadable`.
  */
module Extraction {
  import opened Wrappers
  import opened PyStr

  /** Pages are separated by one blank line. */
  const PageSeparator := "\n\n"

  datatype Pdf = Parsed(pages: seq<Option<string>>) | Unreadable(cause: string)

  /** What a page contributes: its text, or the empty string when it yields none. */
  function PageText(page: Option<string>): string {
    page.GetOr("")
  }

  function PageTexts(pages: seq<Option<string>>): (r: seq<string>)
    ensures |r| == |pages|
    ensures forall i :: 0 <= i < |pages| ==> r[i] == PageText(pages[i])
  {
    seq(|pages|, i requires 0 <= i < |pages| => PageText(pages[i]))
  }

  /**
    * The text of an upload: nothing uploaded and an unreadable document both
    * give `""` (the error is only displayed); otherwise the page texts joined
    * by a blank line, in page order.
    */
  function ExtractText(upload: Option<Pdf>): string {
    match upload
    case None => ""
    case Some(Unreadable(_)) => ""
    case Some(Parsed(pages)) => Join(PageSeparator, PageTexts(pages))
  }

  /**
    * Every page contributes its own text, unchanged and in page order, with a
    * blank line between neighbours; a page without text contributes `""`.
    */
  lemma ExtractKeepsPages(pages: seq<Option<string>>, i: nat)
    requires i < |pages|
    ensures var text, parts := ExtractText(Some(Parsed(pages))), PageTexts(pages);
      var o := PartOffset(PageSeparator, parts, i);
      && o + |PageText(pages[i])| <= |text|
      && text[o..o + |PageText(pages[i])|] == PageText(pages[i])
      && (i > 0 ==> 2 <= o && text[o - 2..o] == "\n\n")
      && |text| == PartOffset(PageSeparator, parts, |pages| - 1) + |PageText(pages[|pages| - 1])|
  {
    var parts := PageTexts(pages);
    JoinPlacesPart(PageSeparator, parts, i);
    JoinLength(PageSeparator, parts);
    if i > 0 {
      JoinPlacesSeparator(PageSeparator, parts, i);
    }
  }

  /**
    * A document whose pages all yield blank (or no) text extracts to a blank
    * string, never to an error: the caller reports it as "no text".
    */
  lemma BlankPagesExtractBlank(pages: seq<Option<string>>)
    requires forall i :: 0 <= i < |pages| ==> IsBlank(PageText(pages[i]))
    ensures IsBlank(ExtractText(Some(Parsed(pages))))
  {
    JoinBlank(PageSeparator, PageTexts(pages));
  }
}

=== FILE: json.dfy ===
/**
  * JSON values as Python sees them after `json.load` / `response.json()`, and
  * Python's subscript operator on them: `v[key]` and `v[index]`, with the
  * exception each misuse raises.
  */
module Json {
  import opened Wrappers

  /**
    * A decoded JSON document. Floating-point numbers are carried as their
    * decimal text: nothing here computes with them.
    */
  datatype Json =
    | JNull
    | JBool(b: bool)
    | JInt(i: int)
    | JReal(literal: string)
    | JStr(s: string)
    | JArray(items: seq<Json>)
    | JObject(members: map<string, Json>)

  /** The Python exceptions a subscript can raise. */
  datatype PyError = KeyError | IndexError | TypeError

  /**
    * `v[k]` for a string key `k`: a dict answers or raises `KeyError`; lists,
    * strings, numbers, booleans and `None` raise `TypeError`.
    */
  function Key(v: Json, k: string): (r: Result<Json, PyError>)
    ensures r.Success? <==> v.JObject? && k in v.members
    ensures r.Success? ==> r.value == v.members[k]
    ensures r == Failure(KeyError) <==> v.JObject? && k !in v.members
    ensures r == Failure(TypeError) <==> !v.JObject?
  {
    match v
    case JObject(m) => if k in m then Success(m[k]) else Failure(KeyError)
    case _ => Failure(TypeError)
  }

  /**
    * `v[i]` for an index `i >= 0`: a list or a string answers or raises
    * `IndexError`; a dict raises `KeyError` (JSON keys are strings, never the
    * integer `i`); anything else raises `TypeError`.
    */
  function Index(v: Json, i: nat): (r: Result<Json, PyError>)
    ensures r.Success? <==> (v.JArray? && i < |v.items|) || (v.JStr? && i < |v.s|)
    ensures r == Failure(IndexError) <==> (v.JArray? && i >= |v.items|) || (v.JStr? && i >= |v.s|)
    ensures r == Failure(KeyError) <==> v.JObject?
    ensures r.Success? && v.JArray? ==> r.value == v.items[i]
    ensures r.Success? && v.JStr? ==> r.value == JStr([v.s[i]])
  {
    match v
    case JArray(items) => if i < |items| then Success(items[i]) else Failure(IndexError)
    case JStr(s) => if i < |s| then Success(JStr([s[i]])) else Failure(IndexError)
    case JObject(_) => Failure(KeyError)
    case _ => Failure(TypeError)
  }
}

=== FILE: llmclient.dfy ===
/**
  * The call to an OpenAI-compatible chat-completion server: the endpoint, the
  * headers and the JSON payload of the request, and the decoding of the reply.
  * The HTTP exchange itself is a parameter: a function from the request to
  * its outcome.
  */
module LlmClient {
  import opened Wrappers
  import opened PyStr
  import opened Json

  const ChatCompletionsPath := "/v1/chat/completions"
  /** Token sent when the API key is empty. */
  const FallbackApiKey := "lm-studio"
  const TimeoutSeconds := 120

  predicate IsSlash(c: char) {
    c == '/'
  }

  /** The base address without its trailing slashes, followed by the chat-completion path. */
  function Endpoint(baseUrl: string): string {
    RStrip(baseUrl, IsSlash) + ChatCompletionsPath
  }

  /** The API key, or the fallback token when the key is empty. */
  function BearerToken(apiKey: string): (r: string)
    ensures r != ""
    ensures apiKey != "" ==> r == apiKey
    ensures apiKey == "" ==> r == FallbackApiKey
  {
    if apiKey == "" then FallbackApiKey else apiKey
  }

  /** JSON content type, and the bearer token: the key, or `lm-studio` for an empty key. */
  function Headers(apiKey: string): (r: map<string, string>)
    ensures r.Keys == {"Content-Type", "Authorization"}
    ensures r["Content-Type"] == "application/json"
    ensures apiKey != "" ==> r["Authorization"] == "Bearer " + apiKey
    ensures apiKey == "" ==> r["Authorization"] == "Bearer lm-studio"
  {
    map["Content-Type" := "application/json", "Authorization" := "Bearer " + BearerToken(apiKey)]
  }

  function Message(role: string, content: string): Json {
    JObject(map["role" := JStr(role), "content" := JStr(content)])
  }

  /** The request body; `temperature` is the decimal text of the float, passed through. */
  function Payload(model: string, systemPrompt: string, userContent: string, temperature: string, maxTokens: int): Json {
    JObject(map[
      "model" := JStr(model),
      "messages" := JArray([Message("system", systemPrompt), Message("user", userContent)]),
      "temperature" := JReal(temperature),
      "max_tokens" := JInt(maxTokens)
    ])
  }

  /** A POST request as it leaves the client. */
  datatype ChatRequest = ChatRequest(endpoint: string, headers: map<string, string>, payload: Json, timeout: nat)

  function BuildRequest(baseUrl: string, apiKey: string, model: string, systemPrompt: string,
                        userContent: string, temperature: string, maxTokens: int): ChatRequest
  {
    ChatRequest(Endpoint(baseUrl), Headers(apiKey), Payload(model, systemPrompt, userContent, temperature, maxTokens), TimeoutSeconds)
  }

  /**
    * What the HTTP exchange yields: a failure of the `requests` library
    * (connection, timeout, non-2xx status, a body that is not JSON), or the
    * decoded JSON body.
    */
  datatype HttpOutcome = Unreachable(cause: string) | Replied(body: Json)

  datatype LlmError =
    | ConnectionError(cause: string)  // the exchange failed
    | InvalidResponse(body: Json)     // a key or index of the reply path is missing
    | UnexpectedBody                  // the path meets a value of the wrong kind: a TypeError, reported by its text only

  /** The reply path choices[0].message.content, with the exception each step can raise. */
  function ReplyContent(data: Json): Result<Json, PyError> {
    var choices :- Key(data, "choices");
    var first :- Index(choices, 0);
    var message :- Key(first, "message");
    Key(message, "content")
  }

  /** The reply shape a chat-completion server is expected to send. */
  predicate HasReplyPath(data: Json) {
    && data.JObject? && "choices" in data.members
    && data.members["choices"].JArray? && |data.members["choices"].items| > 0
    && data.members["choices"].items[0].JObject?
    && "message" in data.members["choices"].items[0].members
    && data.members["choices"].items[0].members["message"].JObject?
    && "content" in data.members["choices"].items[0].members["message"].members
  }

  /**
    * Missing keys and indices raise `KeyError`/`IndexError` and become an
    * invalid-response error carrying the body. A `TypeError` is not caught by
    * `call_local_llm`: it reaches the report's generic handler, which shows the
    * exception's text and not the body.
    */
  function DecodeReply(outcome: HttpOutcome): Result<Json, LlmError> {
    match outcome
    case Unreachable(cause) => Failure(ConnectionError(cause))
    case Replied(data) =>
      match ReplyContent(data)
      case Success(content) => Success(content)
      case Failure(TypeError) => Failure(UnexpectedBody)
      case Failure(_) => Failure(InvalidResponse(data))
  }

  /** `call_local_llm`, with the HTTP exchange given as `server`. */
  function CallLocalLlm(baseUrl: string, apiKey: string, model: string, systemPrompt: string, userContent: string,
                        temperature: string, maxTokens: int, server: ChatRequest -> HttpOutcome): Result<Json, LlmError>
  {
    DecodeReply(server(BuildRequest(baseUrl, apiKey, model, systemPrompt, userContent, temperature, maxTokens)))
  }

  /**
    * The endpoint is the base address with all its trailing slashes removed,
    * then the chat-completion path.
    */
  lemma EndpointShape(baseUrl: string)
    ensures var b := RStrip(baseUrl, IsSlash);
      && Endpoint(baseUrl) == b + "/v1/chat/completions"
      && b == baseUrl[..|b|]
      && (b == "" || b[|b| - 1] != '/')
      && forall i :: |b| <= i < |baseUrl| ==> baseUrl[i] == '/'
  {
    RStripRemovesExactly(baseUrl, IsSlash);
  }

  /** A trailing slash on the base address does not change the endpoint. */
  lemma EndpointIgnoresTrailingSlash(baseUrl: string)
    ensures Endpoint(baseUrl + "/") == Endpoint(baseUrl)
  {
    assert (baseUrl + "/")[..|baseUrl|] == baseUrl;
  }

  /** The payload names the model, carries the sampling settings, and exactly two messages: system, then user. */
  lemma PayloadShape(model: string, systemPrompt: string, userContent: string, temperature: string, maxTokens: int)
    ensures var p := Payload(model, systemPrompt, userContent, temperature, maxTokens);
      && p.JObject? && p.members.Keys == {"model", "messages", "temperature", "max_tokens"}
      && Key(p, "model") == Success(JStr(model))
      && Key(p, "temperature") == Success(JReal(temperature))
      && Key(p, "max_tokens") == Success(JInt(maxTokens))
      && Key(p, "messages").Success? && Key(p, "messages").value.JArray?
      && |Key(p, "messages").value.items| == 2
      && var ms := Key(p, "messages").value;
      && Index(ms, 0).Success? && Key(Index(ms, 0).value, "role") == Success(JStr("system"))
      && Key(Index(ms, 0).value, "content") == Success(JStr(systemPrompt))
      && Index(ms, 1).Success? && Key(Index(ms, 1).value, "role") == Success(JStr("user"))
      && Key(Index(ms, 1).value, "content") == Success(JStr(userContent))
  {
  }

  /** The reply body a well-behaved server sends for content `c`. */
  function ReplyBody(content: Json): Json {
    JObject(map["choices" := JArray([JObject(map["message" := JObject(map["content" := content])])])])
  }

  /** Decoding gives back exactly what the server put in the reply. */
  lemma ReplyRoundTrip(content: Json)
    ensures HasReplyPath(ReplyBody(content))
    ensures DecodeReply(Replied(ReplyBody(content))) == Success(content)
  {
  }

  /**
    * Decoding succeeds exactly on bodies of the expected shape, and then
    * returns `choices[0].message.content` unmodified; a body with a missing
    * key or index gives an invalid-response error carrying that body, and a
    * value of the wrong kind on the path gives the unexpected-body error.
    */
  lemma DecodeReplySpec(data: Json)
    ensures DecodeReply(Replied(data)).Success? <==> HasReplyPath(data)
    ensures HasReplyPath(data) ==>
      DecodeReply(Replied(data)).value == data.members["choices"].items[0].members["message"].members["content"]
    ensures ReplyContent(data) == Failure(KeyError) || ReplyContent(data) == Failure(IndexError) ==>
      DecodeReply(Replied(data)) == Failure(InvalidResponse(data))
    ensures ReplyContent(data) == Failure(TypeError) ==> DecodeReply(Replied(data)) == Failure(UnexpectedBody)
    ensures data.JObject? && "choices" !in data.members ==> DecodeReply(Replied(data)) == Failure(InvalidResponse(data))
    ensures !data.JObject? ==> DecodeReply(Replied(data)) == Failure(UnexpectedBody)
  {
  }

  /** A transport failure is passed on as a connection error, never retried or decoded. */
  lemma TransportFailure(cause: string)
    ensures DecodeReply(Unreachable(cause)) == Failure(ConnectionError(cause))
  {
  }

  /**
    * `call_local_llm` sends one request: to the composed endpoint, with the
    * bearer header, the payload and the 120 s timeout. Its result is that
    * request's reply decoded: the content, a connection error, an error
    * carrying the body when a key or index is missing, or the unexpected-body
    * error when the path meets a value of the wrong kind.
    */
  lemma CallLocalLlmSpec(baseUrl: string, apiKey: string, model: string, systemPrompt: string, userContent: string,
                         temperature: string, maxTokens: int, server: ChatRequest -> HttpOutcome)
    ensures var req := BuildRequest(baseUrl, apiKey, model, systemPrompt, userContent, temperature, maxTokens);
      var r := CallLocalLlm(baseUrl, apiKey, model, systemPrompt, userContent, temperature, maxTokens, server);
      && req.endpoint == Endpoint(baseUrl)
      && req.headers == Headers(apiKey)
      && req.payload == Payload(model, systemPrompt, userContent, temperature, maxTokens)
      && req.timeout == 120
      && (server(req).Unreachable? ==> r == Failure(ConnectionError(server(req).cause)))
      && (server(req).Replied? && HasReplyPath(server(req).body) ==>
            r == Success(server(req).body.members["choices"].items[0].members["message"].members["content"]))
      && (server(req).Replied? && ReplyContent(server(req).body) in {Failure(KeyError), Failure(IndexError)} ==>
            r == Failure(InvalidResponse(server(req).body)))
      && (server(req).Replied? && ReplyContent(server(req).body) == Failure(TypeError) ==> r == Failure(UnexpectedBody))
  {
    var req := BuildRequest(baseUrl, apiKey, model, systemPrompt, userContent, temperature, maxTokens);
    if server(req).Replied? {
      DecodeReplySpec(server(req).body);
    }
  }

  /** The result depends on the server only through its answer to that one request. */
  lemma CallLocalLlmAsksOnce(baseUrl: string, apiKey: string, model: string, systemPrompt: string, userContent: string,
                             temperature: string, maxTokens: int, server1: ChatRequest -> HttpOutcome,
                             server2: ChatRequest -> HttpOutcome)
    requires var req := BuildRequest(baseUrl, apiKey, model, systemPrompt, userContent, temperature, maxTokens);
      server1(req) == server2(req)
    ensures CallLocalLlm(baseUrl, apiKey, model, systemPrompt, userContent, temperature, maxTokens, server1)
         == CallLocalLlm(baseUrl, apiKey, model, systemPrompt, userContent, temperature, maxTokens, server2)
  {
  }
}

=== FILE: ordereddict.dfy ===
/**
  * A Python `dict` from strings to strings: a map together with the order in
  * which its keys were first inserted, which is the order `iter`, `keys()` and
  * `next(iter(d))` see.
  */
module OrderedDict {

  /** The keys of `ks` are pairwise different. */
  ghost predicate Distinct(ks: seq<string>) {
    forall i, j :: 0 <= i < j < |ks| ==> ks[i] != ks[j]
  }

  datatype Dict = Dict(keys: seq<string>, values: map<string, string>) {

    /** The insertion order lists every key of the map exactly once. */
    ghost predicate Valid() {
      && Distinct(keys)
      && forall k :: k in values <==> k in keys
    }

    /** `len(d)` */
    function Size(): nat {
      |keys|
    }

    /**
      * `d[k] = v`: an existing key keeps its place and gets the new value;
      * a new key goes to the end of the insertion order.
      */
    function Set(k: string, v: string): Dict {
      if k in values then Dict(keys, values[k := v]) else Dict(keys + [k], values[k := v])
    }

    /** `del d[k]`; the caller makes sure `k` is present. */
    function Remove(k: string): Dict {
      Dict(Without(keys, k), values - {k})
    }
  }

  /** `ks` with every occurrence of `k` taken out, the rest in order. */
  function Without(ks: seq<string>, k: string): (r: seq<string>)
    ensures forall x :: x in r <==> x in ks && x != k
  {
    if ks == [] then []
    else if ks[0] == k then Without(ks[1..], k)
    else [ks[0]] + Without(ks[1..], k)
  }

  /** In a sequence without repetition, taking out the key at position `i` closes the gap and keeps the rest. */
  lemma {:induction false} WithoutAt(ks: seq<string>, i: nat)
    requires Distinct(ks) && i < |ks|
    ensures Without(ks, ks[i]) == ks[..i] + ks[i + 1..]
    decreases |ks|
  {
    var k := ks[i];
    if i == 0 {
      WithoutAbsent(ks[1..], k);
    } else {
      WithoutAt(ks[1..], i - 1);
      assert ks[1..][i - 1] == k;
      assert ks[..i] + ks[i + 1..] == [ks[0]] + (ks[1..][..i - 1] + ks[1..][i..]);
    }
  }

  lemma {:induction false} WithoutAbsent(ks: seq<string>, k: string)
    requires k !in ks
    ensures Without(ks, k) == ks
    decreases |ks|
  {
    if ks != [] {
      WithoutAbsent(ks[1..], k);
    }
  }

  /** Assigning to an existing key replaces its value in place and leaves every other entry and the order alone. */
  lemma SetExisting(d: Dict, k: string, v: string)
    requires d.Valid() && k in d.values
    ensures d.Set(k, v).Valid()
    ensures d.Set(k, v).keys == d.keys
    ensures d.Set(k, v).values[k] == v
    ensures forall x :: x in d.values && x != k ==> d.Set(k, v).values[x] == d.values[x]
  {
  }

  /** Assigning to a new key appends it to the order and leaves every other entry alone. */
  lemma SetNew(d: Dict, k: string, v: string)
    requires d.Valid() && k !in d.values
    ensures d.Set(k, v).Valid()
    ensures d.Set(k, v).keys == d.keys + [k]
    ensures d.Set(k, v).values == d.values[k := v]
  {
  }

  /**
    * Deleting a present key removes exactly that entry: the other keys keep
    * their relative order and their values, and the size drops by one.
    */
  lemma RemoveAt(d: Dict, i: nat)
    requires d.Valid() && i < |d.keys|
    ensures d.Remove(d.keys[i]).Valid()
    ensures d.Remove(d.keys[i]).keys == d.keys[..i] + d.keys[i + 1..]
    ensures d.Remove(d.keys[i]).values == d.values - {d.keys[i]}
    ensures d.Remove(d.keys[i]).Size() == d.Size() - 1
  {
    WithoutAt(d.keys, i);
    var r := d.keys[..i] + d.keys[i + 1..];
    forall a, b | 0 <= a < b < |r| ensures r[a] != r[b] {
      var a' := if a < i then a else a + 1;
      var b' := if b < i then b else b + 1;
      assert r[a] == d.keys[a'] && r[b] == d.keys[b'];
    }
  }
}

=== FILE: pipeline.dfy ===
/**
  * `generate_report`: the validation gates, the character-budget truncation,
  * the composition of the user message, and the call to the server. Displayed
  * errors and warnings become values; the server is a parameter.
  */
module Pipeline {
  import opened Wrappers
  import opened PyStr
  import opened Json
  import opened OrderedDict
  import opened Extraction
  import opened LlmClient

  const DocTypeLabel := "Type de document : "
  const TextLabel := "Contenu brut extrait du PDF :\n\n"
  const InstructionsLabel := "Consignes supplémentaires : "
  const SectionBreak := "\n\n"

  /** The connection settings `generate_report` receives; `temperature` is opaque. */
  datatype LlmSettings = LlmSettings(baseUrl: string, modelName: string, apiKey: string,
                                     temperature: string, maxTokens: int, maxChars: int)

  datatype ReportError =
    | NoFile                        // nothing uploaded
    | IncompleteConfig              // empty base address or model name
    | NoText                        // extracted text blank once stripped
    | UnknownDocType(name: string)  // the type is not in the registry (a KeyError)
    | Llm(error: LlmError)

  /** The first `maxChars` characters (Python slice semantics) when the text is longer than that, else the text. */
  function Truncate(text: string, maxChars: int): string {
    if |text| > maxChars then PrefixSlice(text, maxChars) else text
  }

  /** The user message: the document type, the extracted text, the extra instructions, in that order. */
  function UserContent(docType: string, text: string, instructions: string): string {
    DocTypeLabel + docType + SectionBreak + TextLabel + text + SectionBreak + InstructionsLabel + instructions
  }

  /** Where the extracted text starts in the user message. */
  function TextOffset(docType: string): nat {
    |DocTypeLabel| + |docType| + |SectionBreak| + |TextLabel|
  }

  /**
    * Reads the three sections back out of a user message, given the lengths of
    * the document type and of the text; `None` when the message is too short
    * or a label is not where it should be.
    */
  function Sections(content: string, docTypeLength: nat, textLength: nat): Option<(string, string, string)> {
    var t := |DocTypeLabel| + docTypeLength + |SectionBreak| + |TextLabel|;
    var i := t + textLength + |SectionBreak| + |InstructionsLabel|;
    if i <= |content|
       && content[..|DocTypeLabel|] == DocTypeLabel
       && content[|DocTypeLabel| + docTypeLength..t] == SectionBreak + TextLabel
       && content[t + textLength..i] == SectionBreak + InstructionsLabel
    then Some((content[|DocTypeLabel|..|DocTypeLabel| + docTypeLength], content[t..t + textLength], content[i..]))
    else None
  }

  /** The two prompts of a validated request, and whether the text had to be truncated. */
  datatype Prepared = Prepared(systemPrompt: string, userContent: string, truncated: bool)
  {
    /** The request `call_local_llm` sends for these prompts and settings. */
    function Request(settings: LlmSettings): ChatRequest {
      BuildRequest(settings.baseUrl, settings.apiKey, settings.modelName, systemPrompt, userContent,
                   settings.temperature, settings.maxTokens)
    }
  }

  /**
    * The gates, in order: an upload is required, then a base address and a
    * model name, then extracted text that is not blank; the system prompt is
    * the registry's template for the chosen type.
    */
  function Prepare(upload: Option<Pdf>, docType: string, instructions: string,
                   settings: LlmSettings, docTypes: Dict): Result<Prepared, ReportError>
  {
    if upload.None? then Failure(NoFile)
    else if settings.baseUrl == "" || settings.modelName == "" then Failure(IncompleteConfig)
    else
      var text := ExtractText(upload);
      if Strip(text) == "" then Failure(NoText)
      else
        var truncated := |text| > settings.maxChars;
        var userContent := UserContent(docType, Truncate(text, settings.maxChars), instructions);
        if docType !in docTypes.values then Failure(UnknownDocType(docType))
        else
          Success(Prepared(docTypes.values[docType], userContent, truncated))
  }

  /** `generate_report`: the report, or the one error that stopped it. */
  function GenerateReport(upload: Option<Pdf>, docType: string, instructions: string,
                          settings: LlmSettings, docTypes: Dict, server: ChatRequest -> HttpOutcome): Result<Json, ReportError>
  {
    match Prepare(upload, docType, instructions, settings, docTypes)
    case Failure(e) => Failure(e)
    case Success(p) =>
      match CallLocalLlm(settings.baseUrl, settings.apiKey, settings.modelName, p.systemPrompt, p.userContent,
                         settings.temperature, settings.maxTokens, server)
      case Success(report) => Success(report)
      case Failure(e) => Failure(Llm(e))
  }

  /**
    * Truncation keeps a prefix of the text. For a non-negative budget the
    * result has length `min(len(text), max_chars)`, and the text is changed
    * exactly when it is longer than the budget.
    */
  lemma TruncateSpec(text: string, maxChars: int)
    ensures var r := Truncate(text, maxChars);
      && |r| <= |text| && r == text[..|r|]
      && (maxChars >= 0 ==> |r| == if |text| < maxChars then |text| else maxChars)
      && (maxChars >= 0 ==> (r == text <==> |text| <= maxChars))
  {
  }

  /** The message can be read back into its three sections: composition loses nothing. */
  lemma SectionsRoundTrip(docType: string, text: string, instructions: string)
    ensures Sections(UserContent(docType, text, instructions), |docType|, |text|) == Some((docType, text, instructions))
  {
    var c := UserContent(docType, text, instructions);
    var d := |DocTypeLabel|;
    var t := d + |docType| + |SectionBreak| + |TextLabel|;
    var i := t + |text| + |SectionBreak| + |InstructionsLabel|;
    assert c == DocTypeLabel + docType + (SectionBreak + TextLabel) + text + (SectionBreak + InstructionsLabel) + instructions;
    assert c[..d] == DocTypeLabel;
    assert c[d..d + |docType|] == docType;
    assert c[d + |docType|..t] == SectionBreak + TextLabel;
    assert c[t..t + |text|] == text;
    assert c[t + |text|..i] == SectionBreak + InstructionsLabel;
    assert c[i..] == instructions;
  }

  /**
    * The message sent carries, right after the text label, the first
    * `min(len(text), max_chars)` characters of the extracted text.
    */
  lemma ComposedTextIsBudgetPrefix(docType: string, text: string, instructions: string, maxChars: int)
    requires maxChars >= 0
    ensures var m := if |text| < maxChars then |text| else maxChars;
      var c := UserContent(docType, Truncate(text, maxChars), instructions);
      var o := TextOffset(docType);
      && o + m <= |c|
      && c[o..o + m] == text[..m]
  {
    var r := Truncate(text, maxChars);
    TruncateSpec(text, maxChars);
    SectionsRoundTrip(docType, r, instructions);
  }

  /** Each gate fails exactly under its own condition once the earlier gates have passed. */
  lemma PrepareGates(upload: Option<Pdf>, docType: string, instructions: string, settings: LlmSettings, docTypes: Dict)
    ensures var r := Prepare(upload, docType, instructions, settings, docTypes);
      && (r == Failure(NoFile) <==> upload.None?)
      && (r == Failure(IncompleteConfig) <==> upload.Some? && (settings.baseUrl == "" || settings.modelName == ""))
      && (r == Failure(NoText) <==>
            upload.Some? && settings.baseUrl != "" && settings.modelName != "" && IsBlank(ExtractText(upload)))
      && (r == Failure(UnknownDocType(docType)) <==>
            upload.Some? && settings.baseUrl != "" && settings.modelName != "" && !IsBlank(ExtractText(upload))
            && docType !in docTypes.values)
      && (r.Success? <==>
            upload.Some? && settings.baseUrl != "" && settings.modelName != "" && !IsBlank(ExtractText(upload))
            && docType in docTypes.values)
  {
    StripEmptyIffBlank(ExtractText(upload));
  }

  /**
    * A prepared request goes to the composed endpoint with the registry's
    * template as the system message and the composed user message, and it is
    * flagged as truncated exactly when the text exceeded the budget.
    */
  lemma PreparedRequest(upload: Option<Pdf>, docType: string, instructions: string, settings: LlmSettings, docTypes: Dict)
    requires Prepare(upload, docType, instructions, settings, docTypes).Success?
    ensures var p := Prepare(upload, docType, instructions, settings, docTypes).value;
      var text := ExtractText(upload);
      && docType in docTypes.values
      && p.truncated == (|text| > settings.maxChars)
      && p.systemPrompt == docTypes.values[docType]
      && p.userContent == UserContent(docType, Truncate(text, settings.maxChars), instructions)
      && p.Request(settings).endpoint == Endpoint(settings.baseUrl)
      && p.Request(settings).headers["Authorization"] == "Bearer " + BearerToken(settings.apiKey)
      && p.Request(settings).timeout == 120
      && p.Request(settings).payload
         == Payload(settings.modelName, docTypes.values[docType],
                    UserContent(docType, Truncate(text, settings.maxChars), instructions),
                    settings.temperature, settings.maxTokens)
  {
  }

  /**
    * No server is contacted when a gate fails: the outcome is that gate's
    * error whatever the server would have answered.
    */
  lemma NoCallOnFailedGate(upload: Option<Pdf>, docType: string, instructions: string, settings: LlmSettings,
                           docTypes: Dict, server1: ChatRequest -> HttpOutcome, server2: ChatRequest -> HttpOutcome)
    requires Prepare(upload, docType, instructions, settings, docTypes).Failure?
    ensures GenerateReport(upload, docType, instructions, settings, docTypes, server1)
         == GenerateReport(upload, docType, instructions, settings, docTypes, server2)
         == Failure(Prepare(upload, docType, instructions, settings, docTypes).error)
  {
  }

  /**
    * Once the gates pass, the report is what the server's reply decodes to, and
    * a failed exchange or a malformed reply is passed on as the one error.
    */
  lemma ReportFromReply(upload: Option<Pdf>, docType: string, instructions: string, settings: LlmSettings,
                        docTypes: Dict, server: ChatRequest -> HttpOutcome)
    requires Prepare(upload, docType, instructions, settings, docTypes).Success?
    ensures var req := Prepare(upload, docType, instructions, settings, docTypes).value.Request(settings);
      var r := GenerateReport(upload, docType, instructions, settings, docTypes, server);
      && (server(req).Unreachable? ==> r == Failure(Llm(ConnectionError(server(req).cause))))
      && (server(req).Replied? && HasReplyPath(server(req).body) ==>
            r == Success(server(req).body.members["choices"].items[0].members["message"].members["content"]))
      && (server(req).Replied? && ReplyContent(server(req).body) in {Failure(KeyError), Failure(IndexError)} ==>
            r == Failure(Llm(InvalidResponse(server(req).body))))
      && (server(req).Replied? && ReplyContent(server(req).body) == Failure(TypeError) ==> r == Failure(Llm(UnexpectedBody)))
  {
    var p := Prepare(upload, docType, instructions, settings, docTypes).value;
    CallLocalLlmSpec(settings.baseUrl, settings.apiKey, settings.modelName, p.systemPrompt, p.userContent,
                     settings.temperature, settings.maxTokens, server);
  }
}

=== FILE: pystr.dfy ===
/**
  * The few pieces of Python string behaviour the report generator relies on:
  * `str.isspace`, `str.strip()`, `str.rstrip(chars)`, `sep.join(parts)` and the
  * prefix slice `s[:n]`. Strings are sequences of Unicode code points, so `|s|`
  * is Python's `len(s)`.
  */
module PyStr {

  /** Python's `str.isspace()` on a single code point. */
  predicate IsSpace(c: char) {
    || '\U{9}' <= c <= '\U{d}'
    || '\U{1c}' <= c <= '\U{20}'
    || c == '\U{85}' || c == '\U{a0}' || c == '\U{1680}'
    || '\U{2000}' <= c <= '\U{200a}'
    || c == '\U{2028}' || c == '\U{2029}' || c == '\U{202f}' || c == '\U{205f}' || c == '\U{3000}'
  }

  /** Every character of `s` is whitespace (the empty string included). */
  predicate IsBlank(s: string) {
    forall i :: 0 <= i < |s| ==> IsSpace(s[i])
  }

  /** Removes the longest prefix made of characters satisfying `drop`. */
  function LStrip(s: string, drop: char -> bool): (r: string)
    ensures |r| <= |s| && r == s[|s| - |r|..]
    decreases |s|
  {
    if s != [] && drop(s[0]) then LStrip(s[1..], drop) else s
  }

  /** Removes the longest suffix made of characters satisfying `drop` (Python `rstrip`). */
  function RStrip(s: string, drop: char -> bool): (r: string)
    ensures |r| <= |s| && r == s[..|r|]
    decreases |s|
  {
    if s != [] && drop(s[|s| - 1]) then RStrip(s[..|s| - 1], drop) else s
  }

  /** Python `s.strip()` with no argument. */
  function Strip(s: string): string {
    RStrip(LStrip(s, IsSpace), IsSpace)
  }

  /** What `LStrip` removes is all droppable, and what it keeps does not start with a droppable character. */
  lemma {:induction false} LStripRemovesExactly(s: string, drop: char -> bool)
    ensures var r := LStrip(s, drop);
      && (r == [] || !drop(r[0]))
      && forall i :: 0 <= i < |s| - |r| ==> drop(s[i])
    decreases |s|
  {
    if s != [] && drop(s[0]) {
      LStripRemovesExactly(s[1..], drop);
      var r := LStrip(s, drop);
      forall i | 0 <= i < |s| - |r| ensures drop(s[i]) {
        if i > 0 { assert s[i] == s[1..][i - 1]; }
      }
    }
  }

  /** What `RStrip` removes is all droppable, and what it keeps does not end with a droppable character. */
  lemma {:induction false} RStripRemovesExactly(s: string, drop: char -> bool)
    ensures var r := RStrip(s, drop);
      && (r == [] || !drop(r[|r| - 1]))
      && forall i :: |r| <= i < |s| ==> drop(s[i])
    decreases |s|
  {
    if s != [] && drop(s[|s| - 1]) {
      RStripRemovesExactly(s[..|s| - 1], drop);
      var r := RStrip(s, drop);
      forall i | |r| <= i < |s| ensures drop(s[i]) {
        if i < |s| - 1 { assert s[i] == s[..|s| - 1][i]; }
      }
    }
  }

  /** `not s.strip()` holds exactly when `s` is made of whitespace only. */
  lemma StripEmptyIffBlank(s: string)
    ensures Strip(s) == "" <==> IsBlank(s)
  {
    var l := LStrip(s, IsSpace);
    LStripRemovesExactly(s, IsSpace);
    RStripRemovesExactly(l, IsSpace);
  }

  /** Python `sep.join(parts)`. */
  function Join(sep: string, parts: seq<string>): string
    decreases |parts|
  {
    if |parts| == 0 then ""
    else if |parts| == 1 then parts[0]
    else parts[0] + sep + Join(sep, parts[1..])
  }

  /** Offset at which `parts[i]` starts in `Join(sep, parts)`. */
  function PartOffset(sep: string, parts: seq<string>, i: nat): nat
    requires i <= |parts|
  {
    if i == 0 then 0 else PartOffset(sep, parts, i - 1) + |parts[i - 1]| + |sep|
  }

  lemma {:induction false} PartOffsetShift(sep: string, parts: seq<string>, i: nat)
    requires 0 < i <= |parts|
    ensures PartOffset(sep, parts, i) == |parts[0]| + |sep| + PartOffset(sep, parts[1..], i - 1)
  {
    if i > 1 {
      PartOffsetShift(sep, parts, i - 1);
    }
  }

  /** The join of `n > 0` parts is exactly as long as the parts plus `n - 1` separators. */
  lemma {:induction false} JoinLength(sep: string, parts: seq<string>)
    requires |parts| > 0
    ensures |Join(sep, parts)| == PartOffset(sep, parts, |parts| - 1) + |parts[|parts| - 1]|
    decreases |parts|
  {
    if |parts| > 1 {
      JoinLength(sep, parts[1..]);
      PartOffsetShift(sep, parts, |parts| - 1);
    }
  }

  /** `Join` keeps part `i`, unchanged, at its offset: the parts appear in their own order. */
  lemma {:induction false} JoinPlacesPart(sep: string, parts: seq<string>, i: nat)
    requires i < |parts|
    ensures PartOffset(sep, parts, i) + |parts[i]| <= |Join(sep, parts)|
    ensures Join(sep, parts)[PartOffset(sep, parts, i)..PartOffset(sep, parts, i) + |parts[i]|] == parts[i]
    decreases |parts|
  {
    if |parts| > 1 {
      var tail := parts[1..];
      var j := Join(sep, parts);
      var jt := Join(sep, tail);
      assert j == parts[0] + sep + jt;
      if i > 0 {
        JoinPlacesPart(sep, tail, i - 1);
        PartOffsetShift(sep, parts, i);
        var h := |parts[0]| + |sep|;
        var o := PartOffset(sep, tail, i - 1);
        assert j[h + o..h + o + |tail[i - 1]|] == jt[o..o + |tail[i - 1]|];
      }
    }
  }

  /** Between part `i - 1` and part `i` stands exactly one separator. */
  lemma {:induction false} JoinPlacesSeparator(sep: string, parts: seq<string>, i: nat)
    requires 0 < i < |parts|
    ensures |sep| <= PartOffset(sep, parts, i) <= |Join(sep, parts)|
    ensures Join(sep, parts)[PartOffset(sep, parts, i) - |sep|..PartOffset(sep, parts, i)] == sep
    decreases |parts|
  {
    var tail := parts[1..];
    var j := Join(sep, parts);
    var jt := Join(sep, tail);
    assert j == parts[0] + sep + jt;
    var h := |parts[0]| + |sep|;
    PartOffsetShift(sep, parts, i);
    if i == 1 {
      assert PartOffset(sep, parts, i) == h;
      assert j[h - |sep|..h] == sep;
    } else {
      JoinPlacesSeparator(sep, tail, i - 1);
      var o := PartOffset(sep, tail, i - 1);
      assert PartOffset(sep, parts, i) == h + o;
      assert j[h + o - |sep|..h + o] == jt[o - |sep|..o];
    }
  }

  /** Joining blank parts with a blank separator gives a blank string. */
  lemma {:induction false} JoinBlank(sep: string, parts: seq<string>)
    requires IsBlank(sep)
    requires forall i :: 0 <= i < |parts| ==> IsBlank(parts[i])
    ensures IsBlank(Join(sep, parts))
    decreases |parts|
  {
    if |parts| > 1 {
      JoinBlank(sep, parts[1..]);
      var j := Join(sep, parts);
      var jt := Join(sep, parts[1..]);
      forall i | 0 <= i < |j| ensures IsSpace(j[i]) {
        if i < |parts[0]| {
          assert j[i] == parts[0][i];
        } else if i < |parts[0]| + |sep| {
          assert j[i] == sep[i - |parts[0]|];
        } else {
          assert j[i] == jt[i - |parts[0]| - |sep|];
        }
      }
    }
  }

  /** Python `s[:n]` for any integer `n` (a negative `n` counts from the end). */
  function PrefixSlice(s: string, n: int): (r: string)
    ensures |r| <= |s| && r == s[..|r|]
    ensures n >= 0 ==> |r| == if n < |s| then n else |s|
    ensures n < 0 ==> |r| == if |s| + n > 0 then |s| + n else 0
  {
    if n >= 0 then (if n < |s| then s[..n] else s)
    else if |s| + n > 0 then s[..|s| + n] else ""
  }
}

=== FILE: registry.dfy ===
/**
  * The document-type registry of the sidebar, as a value: the insertion-ordered
  * `doc_types` dict (name -> instruction template), the type selected for
  * configuration (`config_selected_doc_type`) and the text-area buffer holding
  * its template while it is edited (`config_prompt_buffer`). Each sidebar
  * action is a function from the old state to the new one; the class in
  * module Session applies them in place.
  */
module Registry {
  import opened Wrappers
  import opened PyStr
  import opened OrderedDict

  /** Template given to a new type whose instructions were left empty. */
  const FallbackTemplate := "Tu es un cardiologue. Rédige un compte-rendu structuré."

  datatype RegistryState = RegistryState(docTypes: Dict, selected: string, buffer: string)

  /** Why a sidebar action was refused; a refused action changes nothing. */
  datatype RegistryError =
    | EmptyName      // the new name is blank
    | DuplicateName  // the new name is already a key
    | LastEntry      // deleting the only remaining type

  /** At least one type, keys listed once each, and the selection is one of them. */
  ghost predicate Valid(s: RegistryState) {
    && s.docTypes.Valid()
    && s.docTypes.Size() > 0
    && s.selected in s.docTypes.values
  }

  /**
    * Adding a type: a name that is blank once stripped, or that is already
    * a key (compared as typed, unstripped), is refused; otherwise the type is
    * appended with its instructions, or with the fallback template when they
    * are empty, and becomes the selection with its template in the buffer.
    */
  function Add(s: RegistryState, name: string, template: string): Result<RegistryState, RegistryError> {
    if Strip(name) == "" then Failure(EmptyName)
    else if name in s.docTypes.values then Failure(DuplicateName)
    else
      var d := s.docTypes.Set(name, if template == "" then FallbackTemplate else template);
      Success(RegistryState(d, name, d.values[name]))
  }

  /** Choosing another type in the select box loads its template into the buffer. */
  function Select(s: RegistryState, name: string): RegistryState
    requires name in s.docTypes.values
  {
    RegistryState(s.docTypes, name, s.docTypes.values[name])
  }

  /** Typing in the text area replaces the buffer. */
  function Edit(s: RegistryState, text: string): RegistryState {
    s.(buffer := text)
  }

  /** Saving: the buffer becomes the template of the selected type. */
  function Save(s: RegistryState): RegistryState {
    s.(docTypes := s.docTypes.Set(s.selected, s.buffer))
  }

  /**
    * Deleting: refused while a single type remains; otherwise the selected
    * type is deleted and the first remaining type, in insertion order, becomes
    * the selection with its template in the buffer.
    */
  function Delete(s: RegistryState): Result<RegistryState, RegistryError>
    requires Valid(s)
  {
    if s.docTypes.Size() > 1 then
      assert s.docTypes.keys[0] != s.docTypes.keys[1];
      var d := s.docTypes.Remove(s.selected);
      assert (if s.docTypes.keys[0] == s.selected then s.docTypes.keys[1] else s.docTypes.keys[0]) in d.keys;
      var first := d.keys[0];
      Success(RegistryState(d, first, d.values[first]))
    else
      Failure(LastEntry)
  }

  /** An add is refused exactly for a blank or an existing name, and a blank name is reported first. */
  lemma AddRefusal(s: RegistryState, name: string, template: string)
    ensures Add(s, name, template).Failure? <==> IsBlank(name) || name in s.docTypes.values
    ensures Add(s, name, template) == Failure(EmptyName) <==> IsBlank(name)
    ensures Add(s, name, template) == Failure(DuplicateName) <==> !IsBlank(name) && name in s.docTypes.values
  {
    StripEmptyIffBlank(name);
  }

  /**
    * An accepted add appends the name to the insertion order with its template
    * (the fallback for empty instructions), touches no other entry, and selects
    * the new type with its template in the buffer.
    */
  lemma AddAppends(s: RegistryState, name: string, template: string)
    requires Valid(s) && Add(s, name, template).Success?
    ensures var r := Add(s, name, template).value;
      && Valid(r)
      && r.docTypes.keys == s.docTypes.keys + [name]
      && r.docTypes.values == s.docTypes.values[name := if template == "" then FallbackTemplate else template]
      && r.selected == name
      && r.buffer == r.docTypes.values[name]
  {
    SetNew(s.docTypes, name, if template == "" then FallbackTemplate else template);
  }

  /** Saving writes the buffer into the selected entry only; the order and the selection stay. */
  lemma SaveStoresBuffer(s: RegistryState)
    requires Valid(s)
    ensures var r := Save(s);
      && Valid(r)
      && r.docTypes.keys == s.docTypes.keys
      && r.docTypes.values == s.docTypes.values[s.selected := s.buffer]
      && r.selected == s.selected
      && r.buffer == s.buffer
  {
    SetExisting(s.docTypes, s.selected, s.buffer);
  }

  /** A delete is refused exactly when one type remains. */
  lemma DeleteRefusal(s: RegistryState)
    requires Valid(s)
    ensures Delete(s).Failure? <==> s.docTypes.Size() == 1
    ensures Delete(s).Failure? ==> Delete(s).error == LastEntry
  {
  }

  /**
    * An accepted delete of the selected type, found at position `i`, removes
    * exactly that entry: the others keep their order and templates, and the
    * selection moves to the first remaining type with its template in the buffer.
    */
  lemma DeleteRemovesSelected(s: RegistryState, i: nat)
    requires Valid(s) && s.docTypes.Size() > 1
    requires i < |s.docTypes.keys| && s.docTypes.keys[i] == s.selected
    ensures Delete(s).Success?
    ensures var r := Delete(s).value;
      && Valid(r)
      && s.selected !in r.docTypes.values
      && r.docTypes.keys == s.docTypes.keys[..i] + s.docTypes.keys[i + 1..]
      && r.docTypes.values == s.docTypes.values - {s.selected}
      && r.selected == r.docTypes.keys[0]
      && r.buffer == r.docTypes.values[r.selected]
  {
    RemoveAt(s.docTypes, i);
  }

  /** One sidebar interaction. */
  datatype Action =
    | AddType(name: string, template: string)
    | SelectType(name: string)
    | EditBuffer(text: string)
    | SaveTemplate
    | DeleteSelected

  /**
    * The state after one interaction; a refused action leaves the state as it
    * was. The select box only offers existing names, so selecting an unknown
    * name is ignored.
    */
  function Apply(s: RegistryState, a: Action): (r: RegistryState)
    requires Valid(s)
    ensures Valid(r)
  {
    match a
    case AddType(n, t) =>
      var res := Add(s, n, t);
      if res.Success? then AddAppends(s, n, t); res.value else s
    case SelectType(n) => if n in s.docTypes.values then Select(s, n) else s
    case EditBuffer(t) => Edit(s, t)
    case SaveTemplate => SaveStoresBuffer(s); Save(s)
    case DeleteSelected =>
      var res := Delete(s);
      if res.Success? then
        var i :| 0 <= i < |s.docTypes.keys| && s.docTypes.keys[i] == s.selected;
        DeleteRemovesSelected(s, i);
        res.value
      else s
  }

  /**
    * The state after a whole session of interactions. Whatever the sequence,
    * the registry never becomes empty and keeps its invariant.
    */
  function Run(s: RegistryState, actions: seq<Action>): (r: RegistryState)
    requires Valid(s)
    ensures Valid(r) && r.docTypes.Size() >= 1
    decreases |actions|
  {
    if actions == [] then s else Run(Apply(s, actions[0]), actions[1..])
  }
}

=== FILE: scenarios.dfy ===
/** End-to-end runs of the report generator on concrete inputs. */
module Scenarios {
  import opened Wrappers
  import opened PyStr
  import opened Json
  import opened Extraction
  import opened LlmClient
  import opened Config
  import opened Pipeline

  /** The settings of a fresh session with no configuration file. */
  const Defaults := LlmSettings("http://127.0.0.1:1234", "model", "lm-studio", "0.2", 1500, 20000)

  const EcgPdf: Option<Pdf> := Some(Parsed([Some("Rythme sinusal régulier, FC 72/min.")]))

  const Instructions := "Rédige un compte-rendu structuré prêt à être collé dans le dossier patient."

  lemma EcgExtract()
    ensures ExtractText(EcgPdf) == "Rythme sinusal régulier, FC 72/min."
    ensures !IsBlank(ExtractText(EcgPdf))
  {
    var text := "Rythme sinusal régulier, FC 72/min.";
    assert PageTexts([Some(text)]) == [text];
    assert !IsSpace(text[0]);
  }

  lemma EcgRegistered()
    ensures "ECG standard" in DefaultDocTypes.values && DefaultDocTypes.values["ECG standard"] == EcgTemplate
  {
  }

  /**
    * An ECG page within budget passes every gate and is sent whole, under the
    * label "ECG standard", with the ECG template as the system message.
    */
  lemma EcgPrepared()
    ensures var p := Prepare(EcgPdf, "ECG standard", Instructions, Defaults, DefaultDocTypes);
      && p.Success? && !p.value.truncated
      && p.value.Request(Defaults).endpoint == "http://127.0.0.1:1234" + "/v1/chat/completions"
      && p.value.Request(Defaults).payload == Payload("model", EcgTemplate,
           UserContent("ECG standard", "Rythme sinusal régulier, FC 72/min.", Instructions), "0.2", 1500)
  {
    var text := "Rythme sinusal régulier, FC 72/min.";
    EcgExtract();
    EcgRegistered();
    PrepareGates(EcgPdf, "ECG standard", Instructions, Defaults, DefaultDocTypes);
    PreparedRequest(EcgPdf, "ECG standard", Instructions, Defaults, DefaultDocTypes);
    assert Truncate(text, 20000) == text;
    assert RStrip("http://127.0.0.1:1234", IsSlash) == "http://127.0.0.1:1234";
  }

  /** The server's content comes back as the report, unmodified. */
  lemma EcgReport()
    ensures GenerateReport(EcgPdf, "ECG standard", Instructions, Defaults, DefaultDocTypes,
                           _ => Replied(ReplyBody(JStr("Conclusion: ECG normal.")))) == Success(JStr("Conclusion: ECG normal."))
  {
    EcgPrepared();
    ReplyRoundTrip(JStr("Conclusion: ECG normal."));
  }

  /** An unreachable server gives a connection error and no report. */
  lemma EcgServerDown(cause: string)
    ensures GenerateReport(EcgPdf, "ECG standard", Instructions, Defaults, DefaultDocTypes, _ => Unreachable(cause))
         == Failure(Llm(ConnectionError(cause)))
  {
    EcgPrepared();
  }

  /** A reply without `choices` is an invalid response that carries the body. */
  lemma EcgUnexpectedShape()
    ensures var body := JObject(map["unexpected" := JStr("shape")]);
      GenerateReport(EcgPdf, "ECG standard", Instructions, Defaults, DefaultDocTypes, _ => Replied(body))
      == Failure(Llm(InvalidResponse(body)))
  {
    EcgPrepared();
  }

  /**
    * A reply whose `choices` is a string: indexing it gives a one-character
    * string, and asking that for `message` raises `TypeError`, which is
    * reported without the body.
    */
  lemma EcgChoicesNotList()
    ensures var body := JObject(map["choices" := JStr("x")]);
      GenerateReport(EcgPdf, "ECG standard", Instructions, Defaults, DefaultDocTypes, _ => Replied(body))
      == Failure(Llm(UnexpectedBody))
  {
    EcgPrepared();
  }

  /** A scanned document whose pages carry no text is reported as "no text", not as an extraction error. */
  lemma ScannedPdf(pages: seq<Option<string>>, server: ChatRequest -> HttpOutcome)
    requires forall i :: 0 <= i < |pages| ==> IsBlank(PageText(pages[i]))
    ensures GenerateReport(Some(Parsed(pages)), "ECG standard", Instructions, Defaults, DefaultDocTypes, server)
         == Failure(NoText)
  {
    BlankPagesExtractBlank(pages);
    PrepareGates(Some(Parsed(pages)), "ECG standard", Instructions, Defaults, DefaultDocTypes);
  }
}

=== FILE: session.dfy ===
/**
  * The Streamlit session state, restricted to the keys the report generator
  * owns: the registry (`doc_types`, `config_selected_doc_type`,
  * `config_prompt_buffer`) and the six LLM settings. Each sidebar action
  * updates these fields in place, and each method states its new state as the
  * corresponding function of module Registry applied to the old one.
  */
module Session {
  import opened Wrappers
  import opened PyStr
  import opened OrderedDict
  import opened Json
  import opened Registry
  import opened Config

  class SessionState {
    var docTypes: Dict
    var selected: string
    var buffer: string
    /** The LLM settings present in the session, by key. */
    var llm: map<string, Json>

    function State(): RegistryState
      reads this
    {
      RegistryState(docTypes, selected, buffer)
    }

    ghost predicate Valid()
      reads this
    {
      Registry.Valid(State())
    }

    /**
      * First run of the page: nothing is in the session yet, so the registry
      * comes from the loaded document (or the defaults) with its first type
      * selected, and every LLM setting is filled.
      */
    constructor (cfg: Option<ConfigDoc>)
      requires WellFormed(cfg)
      ensures Valid()
      ensures State() == InitialRegistry(cfg)
      ensures llm == FillSettings(map[], cfg, DefaultLlmConfig)
    {
      var d := InitialDocTypes(cfg);
      DefaultDocTypesValid();
      docTypes := d;
      selected := d.keys[0];
      buffer := d.values[d.keys[0]];
      llm := map[];
      new;
      FillLlmSettings(cfg);
    }

    /** The defaulting loop: each LLM setting missing from the session is filled. */
    method FillLlmSettings(cfg: Option<ConfigDoc>)
      modifies this`llm
      ensures llm == FillSettings(old(llm), cfg, DefaultLlmConfig)
    {
      var i := 0;
      while i < |DefaultLlmConfig|
        invariant 0 <= i <= |DefaultLlmConfig|
        invariant llm == FillSettings(old(llm), cfg, DefaultLlmConfig[..i])
      {
        var (key, default) := DefaultLlmConfig[i];
        assert DefaultLlmConfig[..i + 1][..i] == DefaultLlmConfig[..i];
        if key !in llm {
          llm := llm[key := ConfigValue(cfg, key, default)];
        }
        i := i + 1;
      }
      assert DefaultLlmConfig[..i] == DefaultLlmConfig;
    }

    /** The add-type button. */
    method Add(name: string, template: string) returns (error: Option<RegistryError>)
      requires Valid()
      modifies this
      ensures Valid()
      ensures error.None? <==> Registry.Add(old(State()), name, template).Success?
      ensures error.Some? ==> Registry.Add(old(State()), name, template) == Failure(error.value)
      ensures State() == if error.None? then Registry.Add(old(State()), name, template).value else old(State())
      ensures llm == old(llm)
    {
      if Strip(name) == "" {
        error := Some(EmptyName);
      } else if name in docTypes.values {
        error := Some(DuplicateName);
      } else {
        AddAppends(State(), name, template);
        docTypes := docTypes.Set(name, if template == "" then FallbackTemplate else template);
        selected := name;
        buffer := docTypes.values[name];
        error := None;
      }
    }

    /** Choosing a type in the select box. */
    method Select(name: string)
      requires Valid() && name in docTypes.values
      modifies this
      ensures Valid()
      ensures State() == Registry.Select(old(State()), name)
      ensures llm == old(llm)
    {
      selected := name;
      buffer := docTypes.values[name];
    }

    /** Typing in the text area. */
    method Edit(text: string)
      requires Valid()
      modifies this
      ensures Valid()
      ensures State() == Registry.Edit(old(State()), text)
      ensures llm == old(llm)
    {
      buffer := text;
    }

    /** The save button of the selected type. */
    method Save()
      requires Valid()
      modifies this
      ensures Valid()
      ensures State() == Registry.Save(old(State()))
      ensures llm == old(llm)
    {
      SaveStoresBuffer(State());
      docTypes := docTypes.Set(selected, buffer);
    }

    /** The delete button: deletes the selected type unless it is the last one. */
    method Delete() returns (error: Option<RegistryError>)
      requires Valid()
      modifies this
      ensures Valid()
      ensures error.None? <==> Registry.Delete(old(State())).Success?
      ensures error.Some? ==> error.value == LastEntry && State() == old(State())
      ensures error.None? ==> State() == Registry.Delete(old(State())).value
      ensures llm == old(llm)
    {
      if docTypes.Size() > 1 {
        ghost var i :| 0 <= i < |docTypes.keys| && docTypes.keys[i] == selected;
        DeleteRemovesSelected(State(), i);
        docTypes := docTypes.Remove(selected);
        selected := docTypes.keys[0];
        buffer := docTypes.values[selected];
        error := None;
      } else {
        error := Some(LastEntry);
      }
    }
  }
}

=== FILE: wrappers.dfy ===
/** Failure-compatible wrappers used for the error paths of the report generator. */
module Wrappers {

  datatype Option<+T> = None | Some(value: T) {
    function GetOr(default: T): T {
      match this
      case Some(v) => v
      case None => default
    }
  }

  datatype Result<+R, +E> = Success(value: R) | Failure(error: E) {
    predicate IsFailure() {
      Failure?
    }

    function PropagateFailure<U>(): Result<U, E>
      requires Failure?
    {
      Failure(error)
    }

    function Extract(): R
      requires Success?
    {
      value
    }
  }
}
